=== FILE: README.md ===
# Logo cropper utilities in Dafny

A model of the browser utilities behind the logo cropper, with proofs about them:

- the dominant-colour extractor `getDominantColor`;
- the circular cropper `getCroppedImgCircle`;
- the single-pixel colour reader `getCornerColor`;
- the PDF exporter `downloadLogoPDF` with its blur baker `getBlurredImage`.

The browser's part of each utility is given to the model as a parameter:

- image decoding and resampling onto a canvas;
- `toBlob` and `toDataURL`;
- whether the 2D context has a `filter` property;
- html2canvas and jsPDF.

Each utility is then modelled from the point where its image has loaded or failed to load. A promise's fate is an `Outcome`:

- `Resolved(value)`;
- `Rejected(reason)`, for a string passed to `reject`;
- `RejectedError(message)`, for an `Error` thrown by an `async` function, of which only the message is kept;
- `Pending`, for a promise that never settles because its `onload` callback threw.

Modules:

| module | file | models |
|---|---|---|
| `Pixels` | pixels.dfy | bytes, RGBA pixels, load and promise outcomes |
| `HexColor` | hex_color.dfy | the shared `#rrggbb` formula `((1 << 24) + (r << 16) + (g << 8) + b).toString(16).slice(1)`, the hex notation of section 5.2 of CSS Color Module Level 4 |
| `ColorKey` | color_key.dfy | the `${r},${g},${b}` table key and its `split(",").map(Number)` read-back |
| `DominantColor` | dominant_color.dfy | the frequency loop and the argmax loop as methods over the sampled ImageData bytes, proved against a specification of counts, first appearance and the dominant colour |
| `CornerColor` | corner_color.dfy | the 1 × 1 pixel read and its hex string |
| `CircleCrop` | circle_crop.dfy | the square canvas filled pixel by pixel under an idealised circular clip |
| `UriComponent` | uri_component.dfy | `encodeURIComponent` (UTF-8 octets, `%XY` in upper case), with `decodeURIComponent` as its inverse |
| `LogoPdf` | logo_pdf.dfy | the blur parameter arithmetic and fallbacks, the page size, the relay URL and the choice of back-layer source |

## Model

| member | source | states |
|---|---|---|
| HexColor.ToBase16 | src/utils/getDominantColor.js:44-45 | `n.toString(16)` is a non-empty string of lower-case hex digits whose base-16 value is `n` |
| HexColor.PackedDigits | src/utils/getDominantColor.js:44-46 | the base-16 digits of the packed number are `1` followed by the two digits of `r`, of `g` and of `b`, so `slice(1)` keeps exactly six digits, leading zeros included |
| HexColor.Hex | src/utils/getDominantColor.js:44-46 | round trip of the hex formula: for all bytes, `hex` is `#` and six lower-case hex digits whose pairs 1-2, 3-4 and 5-6 read back as `r`, `g` and `b` |
| HexColor.HexOfUnique | src/utils/getCornerColor.js:16-18 | only one string encodes a given `r`, `g`, `b` that way, so the hex string is determined by the channels alone |
| ColorKey.Decimal | src/utils/getDominantColor.js:27 | a number written in a template string is a non-empty string of decimal digits that `Number` reads back as the number |
| ColorKey.ParseDecimal | src/utils/getDominantColor.js:42 | `Number` of a digit string, the digits read most significant first; it has no contract of its own, and `ColorKey.Decimal` and `ColorKey.DecimalOfParse` prove it inverts `${n}` in both directions |
| ColorKey.DecimalOfParse | src/utils/getDominantColor.js:27-42 | writing back `Number(s)` gives `s` for every digit string without leading zeros, which is what `${n}` writes |
| ColorKey.Split | src/utils/getDominantColor.js:42 | `split(",")` gives at least one piece, no piece holds the separator, and joining the pieces with it gives the string back |
| ColorKey.Key | src/utils/getDominantColor.js:27-42 | splitting the key `${r},${g},${b}` at `,` gives exactly three digit strings, and `Number` of each gives back the channel that built the key |
| ColorKey.KeyInjective | src/utils/getDominantColor.js:27-28 | the key format is injective: distinct colours never share a key, so counting by key is counting by colour |
| DominantColor.FirstSeenMembers | src/utils/getDominantColor.js:22-29 | a colour is among the colours seen so far exactly when some pixel so far has it, exactly when its count is positive |
| DominantColor.FirstSeenDistinct | src/utils/getDominantColor.js:22-29 | no colour is listed twice among the colours seen |
| DominantColor.FirstSeenOrdered | src/utils/getDominantColor.js:22-29 | the colours seen are listed in order of their first pixel |
| DominantColor.CountsSumToPixels | src/utils/getDominantColor.js:22-29 | the counts of the colours seen add up to the number of pixels, `data.length / 4` |
| DominantColor.AlphaIgnoredCounts | src/utils/getDominantColor.js:22-28 | two samples that differ only in alpha bytes give every colour the same count |
| DominantColor.AlphaIgnored | src/utils/getDominantColor.js:22-28 | two samples that differ only in alpha bytes have the same dominant colour; transparent pixels count like any other |
| DominantColor.DominantFromScan | src/utils/getDominantColor.js:32-40 | the colour the strict `>` scan stops on is dominant: its count is the highest, and among colours with that count it appears first |
| DominantColor.DominantUnique | src/utils/getDominantColor.js:35-39 | the tie-break leaves no choice: a sample has at most one dominant colour |
| DominantColor.TableStepSeen | src/utils/getDominantColor.js:28 | a pixel whose colour already has a key adds one to that key's count and changes nothing else |
| DominantColor.TableStepNew | src/utils/getDominantColor.js:28 | a pixel of a new colour appends its key with count 1 |
| DominantColor.TableIsCounts | src/utils/getDominantColor.js:22-29 | the table built pixel by pixel holds one key per colour, in order of first appearance, with that colour's count |
| DominantColor.TableByColor | src/utils/getDominantColor.js:22-29 | read by colour, the finished table has a key for a colour exactly when the colour occurs, holding its number of pixels |
| DominantColor.TableCoversFirstPixel | src/utils/getDominantColor.js:32-42 | with at least one pixel the table has a key with a positive count, so `dominant` is not null |
| DominantColor.ScanChoosesDominant | src/utils/getDominantColor.js:32-40 | the key where the argmax scan stops is the key of the dominant colour |
| DominantColor.CountColors | src/utils/getDominantColor.js:22-29 | the frequency loop leaves a table whose key for each colour is present exactly when the colour occurs and holds its count, with keys in insertion order |
| DominantColor.MostFrequent | src/utils/getDominantColor.js:32-40 | the argmax loop returns the highest count and the first key in order that reaches it; `dominant` is null exactly when `maxCount` stays 0 |
| DominantColor.GetDominantColor | src/utils/getDominantColor.js:6-51 | a failed load rejects with "Error loading image."; a non-empty sample resolves with the dominant colour and its hex string, so the 40 × 40 sample always resolves; an empty sample never settles |
| CornerColor.GetCornerColor | src/utils/getCornerColor.js:6-23 | a failed load, and only that, rejects with "Failed to read image."; otherwise the result holds the pixel's four bytes unchanged and the hex string of its colour |
| CornerColor.HexIgnoresAlpha | src/utils/getCornerColor.js:16-18 | pixels that differ only in alpha get the same hex string |
| CircleCrop.Side | src/utils/getCroppedImage.js:7-9 | the canvas side is the smaller of the crop's width and height |
| CircleCrop.InDisc | src/utils/getCroppedImage.js:14-17 | the integer pixel test holds exactly when the pixel's centre `(i + 1/2, j + 1/2)` lies in the closed disc of centre `(d/2, d/2)` and radius `d/2` that `arc` traces |
| CircleCrop.Painted | src/utils/getCroppedImage.js:14-30 | what one canvas pixel holds after the clip and the 1:1 draw: the source pixel at `(x + i, y + j)` when the pixel is inside the disc and that source pixel exists, transparent otherwise; it has no contract of its own, and `CircleCrop.GetCroppedImgCircle` proves every output pixel equals it |
| CircleCrop.CornersOutsideDisc | src/utils/getCroppedImage.js:14-17 | on a canvas of side at least 4 the four corner pixels lie outside the clip disc |
| CircleCrop.DiscInscribed | src/utils/getCroppedImage.js:14-17 | the clip disc holds the centre pixel and reaches the middle pixel of every edge |
| CircleCrop.DiscSymmetric | src/utils/getCroppedImage.js:14-17 | the clip disc is symmetric under both mirrors of the square and under its diagonal |
| CircleCrop.GetCroppedImgCircle | src/utils/getCroppedImage.js:1-45 | a failed load rejects with "Failed to load image"; a canvas tainted by a cross-origin image, and only that, leaves the promise pending because `toBlob` throws; otherwise the promise settles: it rejects with "Canvas empty" exactly for an empty canvas or a missing blob, and it resolves in every other case. The blob is a PNG named "circle.png" of side `min(width, height)`, each pixel copied 1:1 from `(x + i, y + j)` inside the disc and transparent outside it or outside the image; on a side of at least 4 the corners are transparent |
| UriComponent.EncodeURIComponent | src/utils/downloadLogoPDF.js:111-113 | the encoding holds only unescaped characters and `%` |
| UriComponent.Utf8RoundTrip | src/utils/downloadLogoPDF.js:111-113 | the UTF-8 octets of a character announce their own length and decode back to it |
| UriComponent.DecodeEncodedChar | src/utils/downloadLogoPDF.js:111-113 | decoding an encoded character followed by any text gives the character, then the decoding of the text |
| UriComponent.DecodeEncode | src/utils/downloadLogoPDF.js:111-113 | decoding the encoding of any string gives the string back |
| UriComponent.EncodeUnescapedIsIdentity | src/utils/downloadLogoPDF.js:111-113 | a string of unescaped characters is its own encoding |
| LogoPdf.OrElse | src/utils/downloadLogoPDF.js:25-26 | `a \|\| b` on sizes is `a` whenever `a` is non-zero and `b` otherwise, and 0 only when both are 0 |
| LogoPdf.Scale | src/utils/downloadLogoPDF.js:29 | the scale is 1 when the display width is 0, and otherwise the factor that takes the display width to the natural width |
| LogoPdf.DownscaleFactor | src/utils/downloadLogoPDF.js:45 | the factor lies in [0.03, 1], is never below the reciprocal of `1 + scaledBlur / 5`, and is that reciprocal or the floor 0.03: the larger of the two |
| LogoPdf.Round | src/utils/downloadLogoPDF.js:49-53 | `Math.round` gives the integer within half a unit below and under half a unit above |
| LogoPdf.ScaledBlur | src/utils/downloadLogoPDF.js:29-30 | the blur in natural pixels is the given blur when the display width is 0, and otherwise stands to it as the natural width to the display width |
| LogoPdf.SmallSize | src/utils/downloadLogoPDF.js:47-54 | an intermediate side is at least 1: the nearest integer to `natural * factor`, or 1 when that product is under 0.5 |
| LogoPdf.SmallSizeBounds | src/utils/downloadLogoPDF.js:47-54 | an intermediate side is at least 1, and at most the natural side when that is at least 1 |
| LogoPdf.SmallSizeMonotone | src/utils/downloadLogoPDF.js:47-54 | a larger factor never gives a smaller intermediate side |
| LogoPdf.DownscaleFactorMonotone | src/utils/downloadLogoPDF.js:45 | the factor does not increase as the scaled blur grows |
| LogoPdf.StrongerBlurSmallerIntermediate | src/utils/downloadLogoPDF.js:45-54 | a stronger blur never gives a larger intermediate canvas |
| LogoPdf.HalfDisplayWidthDoublesBlur | src/utils/downloadLogoPDF.js:29-30 | a display width of half the natural width doubles the blur |
| LogoPdf.GetBlurredImage | src/utils/downloadLogoPDF.js:14-85 | a blur of 0 or less, a failed load and a throwing canvas all give back `src`. Otherwise a natural side of 0 gives `"data:,"`, the data URL of a canvas with no pixels, and in every other case the result is a baked PNG of the natural size (`naturalWidth \|\| width` by `naturalHeight \|\| height`): blurred by the scaled radius when `ctx.filter` exists, and otherwise through an intermediate canvas whose sides are the clamped rounded downscaled sides, each in [1, natural] |
| LogoPdf.BlurGateIsFastPath | src/utils/downloadLogoPDF.js:15 | for a blur level of 0 or less the baker gives back its source, so the exporter's own `blurLevel > 0` gate changes nothing |
| LogoPdf.BlurLevelOrDefault | src/utils/downloadLogoPDF.js:100 | an omitted blur level is 5 and a given one is used as it is |
| LogoPdf.PageSizeMM | src/utils/downloadLogoPDF.js:107 | the page side is 108.42 mm exactly when the shape is "round", and 105.833 mm otherwise |
| LogoPdf.ProxiedUrl | src/utils/downloadLogoPDF.js:111-113 | the relay URL is the route followed by an encoding made of unescaped characters and `%`, which decodes back to the image URL |
| LogoPdf.DownloadLogoPDF | src/utils/downloadLogoPDF.js:96-191 | a missing or non-HTML element, and only that, rejects with an `Error` whose message is "downloadLogoPDF: invalid element provided"; otherwise the export resolves; the back layer gets the relay URL when the blur level (5 when omitted) is 0 or less and the baked image of it otherwise, so an omitted level replaces the relay URL by a data URL whenever the image loads and the canvas does not throw; unless capture throws, a square portrait page in mm of the shape's side is saved as "PrintCopy.pdf" with the PNG snapshot at (0, 0) filling it |

## Behaviour worth knowing

- The extractor counts every pixel whatever its alpha and has no grey fallback (`DominantColor.AlphaIgnored`); with no pixel its promise never settles.
- The cropper always clips a circle; it has no square branch.
- The cropper creates its `Image` without `crossOrigin`, unlike the two colour utilities, so an image from another origin taints the canvas, unless the crop has a zero side, and its promise never settles.
- The exporter catches a capture or save failure, logs it and resolves.
- The client sends image URLs through the relay route `/api/image-proxy`, and that is the prefix modelled.

## Left out

- Image decoding, `drawImage` resampling (the 40 × 40 and 1 × 1 downsamples), the `ctx.filter` Gaussian blur and the smooth upscale are canvas internals. The model starts from their result, or records only their parameters (`BlurRender`).
- The circular clip is idealised: a pixel is painted exactly when its centre lies in the closed disc. Edge antialiasing is not modelled.
- `toBlob` and `toDataURL` PNG encoding are left out. The blob keeps the canvas pixels, which is what a lossless PNG does. A blob that does not appear on a non-empty canvas is the parameter `blobFails`.
- The html2canvas snapshot with its `onclone` DOM surgery and the jsPDF construction and `save` are foreign library calls. Whether they throw is the parameter `captureFails`, and only the document's orientation, unit, page size, image placement and file name are recorded.
- Promise and callback plumbing, `console.warn` and `console.error` are left out. Each utility is a function or method over the load outcome. Origins enter only as the cropper's `crossOriginImage` flag and the baker's `canvasThrows` flag.
- api/imageProxy.js (the relay) and the UI files are not part of this model.
- The blur arithmetic of `getBlurredImage` is modelled on reals. IEEE-754 rounding, NaN and non-numeric blur levels are not modelled.
- CircleCrop.GetCroppedImgCircle: takes the crop's fields as integers with non-negative width and height. Fractional crops are not modelled: there `canvas.width` truncates the side while `arc` keeps it exact, and `drawImage` resamples. Negative crops are not modelled either: there `arc` throws on the negative radius and the promise never settles.
- `Math.round` is `floor(x + 0.5)`, which matches it on all reals.
- The 32-bit shifts in the hex formula are multiplications, which is exact because the channels are bytes.
- DominantColor.CountColors: takes the key format as a parameter and needs only that distinct colours get distinct keys. The extractor passes `Key`, and `ColorKey.KeyInjective` proves that `Key` meets this requirement.
- DominantColor.GetDominantColor: requires the byte count to be a multiple of 4, which `getImageData` always gives. It models the sample as bytes rather than as the fixed 1600 pixels, so it also covers the empty sample that the real canvas never produces.
- UriComponent.EncodeURIComponent: a Dafny `char` is a Unicode scalar value, so the lone surrogates on which JavaScript throws a URIError cannot arise.
- LogoPdf.GetBlurredImage: records the sizes and radius of the baked canvas, not its pixels.

=== FILE: circle_crop.dfy ===
/**
 * `getCroppedImgCircle`: a square canvas whose side is the smaller crop
 * dimension, a circular clip inscribed in it, and one `drawImage` that
 * copies the top-left side × side part of the crop rectangle 1:1 into the
 * canvas. The clip is idealised: a canvas pixel is painted exactly when its
 * centre lies in the closed disc (edge antialiasing is not modelled).
 */
module CircleCrop {
  import opened Pixels

  /** A decoded source image: `height` rows of `width` pixels. */
  datatype Bitmap = Bitmap(width: nat, height: nat, rows: seq<seq<RGBA>>)

  predicate WellFormed(img: Bitmap) {
    |img.rows| == img.height && forall y :: 0 <= y < |img.rows| ==> |img.rows[y]| == img.width
  }

  /** The crop rectangle in source-pixel coordinates (`pixelCrop`). */
  datatype CropRegion = CropRegion(x: int, y: int, width: nat, height: nat)

  /** The PNG blob the utility resolves with: its name, type and (lossless) pixels. */
  datatype PngBlob = PngBlob(name: string, mimeType: string, side: nat, rows: seq<seq<RGBA>>)

  /** `Math.min(pixelCrop.width, pixelCrop.height)`: the side of the output canvas. */
  function Side(crop: CropRegion): (d: nat)
    ensures d <= crop.width && d <= crop.height
    ensures d == crop.width || d == crop.height
  {
    if crop.width <= crop.height then crop.width else crop.height
  }

  /**
   * The centre (i + 1/2, j + 1/2) of canvas pixel (i, j) lies in the disc of
   * centre (d/2, d/2) and radius d/2, the path `arc(d / 2, d / 2, d / 2, …)`
   * clips to. The test doubles all lengths to stay integral.
   */
  predicate InDisc(d: nat, i: int, j: int)
    ensures InDisc(d, i, j) <==> InCircle(d as real / 2.0, i as real + 0.5, j as real + 0.5)
  {
    var dx, dy := 2 * i + 1 - d, 2 * j + 1 - d;
    HalvedSquares(dx as real, dy as real, d as real);
    dx * dx + dy * dy <= d * d
  }

  /** The point (x, y) lies in the closed disc of centre (c, c) and radius c. */
  ghost predicate InCircle(c: real, x: real, y: real) {
    (x - c) * (x - c) + (y - c) * (y - c) <= c * c
  }

  /** Halving every length keeps the comparison of a sum of squares with a square. */
  lemma HalvedSquares(dx: real, dy: real, d: real)
    ensures dx * dx + dy * dy <= d * d <==> (dx / 2.0) * (dx / 2.0) + (dy / 2.0) * (dy / 2.0) <= (d / 2.0) * (d / 2.0)
  {
    assert (dx / 2.0) * (dx / 2.0) == dx * dx / 4.0;
    assert (dy / 2.0) * (dy / 2.0) == dy * dy / 4.0;
    assert (d / 2.0) * (d / 2.0) == d * d / 4.0;
  }

  /** Source pixel (x, y) exists; `drawImage` clips the source rectangle to the image. */
  predicate InImage(img: Bitmap, x: int, y: int) {
    0 <= x < img.width && 0 <= y < img.height
  }

  /**
   * What canvas pixel (i, j) holds after the clip and the draw: the source
   * pixel at the same offset inside the crop rectangle when the pixel is
   * inside the disc and that source pixel exists, transparent otherwise.
   */
  function Painted(img: Bitmap, crop: CropRegion, d: nat, i: int, j: int): RGBA
    requires WellFormed(img)
  {
    if InDisc(d, i, j) && InImage(img, crop.x + i, crop.y + j) then img.rows[crop.y + j][crop.x + i] else Transparent
  }

  /** The four corner pixels of a canvas of side at least 4 lie outside the disc. */
  lemma CornersOutsideDisc(d: nat)
    requires d >= 4
    ensures !InDisc(d, 0, 0) && !InDisc(d, d - 1, 0) && !InDisc(d, 0, d - 1) && !InDisc(d, d - 1, d - 1)
  {
    var e := d - 4;
    assert (1 - d) * (1 - d) == (d - 1) * (d - 1) == d * d - 2 * d + 1;
    assert d * e >= 0;
    assert d * d - 4 * d == d * e;
  }

  /**
   * The disc is inscribed in the canvas: it reaches the middle of every
   * edge and contains the centre pixel.
   */
  lemma DiscInscribed(d: nat)
    requires d >= 1
    ensures InDisc(d, d / 2, d / 2)
    ensures InDisc(d, d / 2, 0) && InDisc(d, d / 2, d - 1) && InDisc(d, 0, d / 2) && InDisc(d, d - 1, d / 2)
  {
    var m := 2 * (d / 2) + 1 - d;
    assert m == 0 || m == 1;
    assert m * m <= 1;
    assert (1 - d) * (1 - d) == d * d - 2 * d + 1;
    assert (2 * (d - 1) + 1 - d) * (2 * (d - 1) + 1 - d) == d * d - 2 * d + 1;
  }

  /** The disc is symmetric under the mirrors of the square and its diagonal. */
  lemma DiscSymmetric(d: nat, i: int, j: int)
    ensures InDisc(d, i, j) == InDisc(d, d - 1 - i, j) == InDisc(d, i, d - 1 - j) == InDisc(d, j, i)
  {
    var dx := 2 * i + 1 - d;
    assert 2 * (d - 1 - i) + 1 - d == -dx;
    assert (-dx) * (-dx) == dx * dx;
    var dy := 2 * j + 1 - d;
    assert 2 * (d - 1 - j) + 1 - d == -dy;
    assert (-dy) * (-dy) == dy * dy;
  }

  /**
   * The canvas is tainted when a non-empty source rectangle of an image from
   * another origin is drawn on it. The `Image` is created without
   * `crossOrigin`, so such an image is never CORS-approved; a zero-size
   * source rectangle makes `drawImage` return before it draws anything.
   */
  predicate Tainted(crossOriginImage: bool, crop: CropRegion) {
    crossOriginImage && Side(crop) > 0
  }

  /**
   * The utility once the image has loaded (or failed to).
   *  - `crossOriginImage`: the image comes from another origin. On a tainted
   *    canvas `toBlob` throws a SecurityError inside `onload`, so the promise
   *    never settles.
   *  - `blobFails`: `toBlob` hands back no blob on a non-empty canvas, which
   *    the model cannot see. On an empty canvas `toBlob` always hands back
   *    none.
   */
  method GetCroppedImgCircle(load: LoadOutcome<Bitmap>, crop: CropRegion, crossOriginImage: bool, blobFails: bool)
    returns (outcome: Outcome<PngBlob>)
    requires load.Loaded? ==> WellFormed(load.content)
    ensures load.LoadFailed? ==> outcome == Rejected("Failed to load image")
    ensures load.Loaded? ==> (outcome == Pending <==> Tainted(crossOriginImage, crop))
    ensures load.Loaded? && !Tainted(crossOriginImage, crop) ==>
      (outcome == Rejected("Canvas empty") <==> Side(crop) == 0 || blobFails)
    ensures load.Loaded? && !Tainted(crossOriginImage, crop) ==> outcome == Rejected("Canvas empty") || outcome.Resolved?
    ensures outcome.Resolved? ==>
      var img, blob, d := load.content, outcome.value, Side(crop);
      && load.Loaded?
      && blob.name == "circle.png" && blob.mimeType == "image/png"
      && blob.side == d && |blob.rows| == d
      && (forall j :: 0 <= j < d ==> |blob.rows[j]| == d)
      && (forall j, i :: 0 <= j < d && 0 <= i < d ==> blob.rows[j][i] == Painted(img, crop, d, i, j))
    ensures outcome.Resolved? && Side(crop) >= 4 ==>
      var rows, d := outcome.value.rows, Side(crop);
      rows[0][0] == rows[0][d - 1] == rows[d - 1][0] == rows[d - 1][d - 1] == Transparent
  {
    if load.LoadFailed? {
      return Rejected("Failed to load image");
    }
    var img := load.content;
    var d := Side(crop);
    var canvas := new RGBA[d, d]((j, i) => Transparent);
    var j := 0;
    while j < d
      invariant 0 <= j <= d
      invariant forall y, x :: 0 <= y < j && 0 <= x < d ==> canvas[y, x] == Painted(img, crop, d, x, y)
      invariant forall y, x :: j <= y < d && 0 <= x < d ==> canvas[y, x] == Transparent
    {
      var i := 0;
      while i < d
        invariant 0 <= i <= d
        invariant forall y, x :: 0 <= y < j && 0 <= x < d ==> canvas[y, x] == Painted(img, crop, d, x, y)
        invariant forall x :: 0 <= x < i ==> canvas[j, x] == Painted(img, crop, d, x, j)
        invariant forall y, x :: j <= y < d && 0 <= x < d && (y > j || x >= i) ==> canvas[y, x] == Transparent
      {
        if InDisc(d, i, j) && InImage(img, crop.x + i, crop.y + j) {
          canvas[j, i] := img.rows[crop.y + j][crop.x + i];
        }
        i := i + 1;
      }
      j := j + 1;
    }
    if Tainted(crossOriginImage, crop) {
      return Pending;
    }
    if d == 0 || blobFails {
      return Rejected("Canvas empty");
    }
    var rows := seq(d, y requires 0 <= y < d reads canvas => seq(d, x requires 0 <= x < d reads canvas => canvas[y, x]));
    if d >= 4 {
      CornersOutsideDisc(d);
    }
    outcome := Resolved(PngBlob("circle.png", "image/png", d, rows));
  }
}

=== FILE: color_key.dfy ===
/**
 * The frequency-table keys of the dominant-colour extractor: the template
 * string `${r},${g},${b}`, and the way the winning key is read back with
 * `key.split(",").map(Number)`.
 */
module ColorKey {
  import opened Pixels

  predicate IsDigit(c: char) {
    '0' <= c <= '9'
  }

  predicate AllDigits(s: string) {
    forall i :: 0 <= i < |s| ==> IsDigit(s[i])
  }

  /** The value of a string of decimal digits, most significant first. */
  function ParseDecimal(s: string): nat
    requires AllDigits(s)
  {
    if s == [] then 0 else 10 * ParseDecimal(s[..|s| - 1]) + (s[|s| - 1] as int - '0' as int)
  }

  /**
   * `${n}` for a non-negative integer: its decimal digits without leading
   * zeros. `Number` applied to these digits gives `n` back.
   */
  function Decimal(n: nat): (s: string)
    ensures |s| >= 1 && AllDigits(s)
    ensures ParseDecimal(s) == n
  {
    var last := ('0' as int + n % 10) as char;
    if n < 10 then [last]
    else
      var s := Decimal(n / 10) + [last];
      assert s[..|s| - 1] == Decimal(n / 10);
      s
  }

  /**
   * `s.split(sep)` for a one-character separator: the pieces between
   * separators, in order, empty pieces included (so there is always one more
   * piece than there are separators). No piece holds the separator, and
   * joining the pieces with it gives `s` back.
   */
  function Split(s: string, sep: char): (parts: seq<string>)
    ensures |parts| >= 1
    ensures forall i :: 0 <= i < |parts| ==> sep !in parts[i]
    ensures Join(parts, sep) == s
  {
    if s == [] then [""]
    else
      var rest := Split(s[1..], sep);
      if s[0] == sep then
        assert [sep] + s[1..] == s;
        [""] + rest
      else
        var parts := [[s[0]] + rest[0]] + rest[1..];
        assert parts[1..] == rest[1..];
        assert Join(parts, sep) == [s[0]] + Join(rest, sep);
        assert [s[0]] + s[1..] == s;
        forall i | 0 <= i < |parts|
          ensures sep !in parts[i]
        {
          if i == 0 {
            assert parts[0] == [s[0]] + rest[0];
          } else {
            assert parts[i] == rest[i];
          }
        }
        parts
  }

  /** `parts.join(sep)`: the pieces with the separator between neighbours. */
  function Join(parts: seq<string>, sep: char): string
    requires |parts| >= 1
  {
    if |parts| == 1 then parts[0] else parts[0] + [sep] + Join(parts[1..], sep)
  }

  /**
   * The key `${r},${g},${b}` under which a colour is counted. Round trip:
   * splitting it at `,` gives exactly three digit strings, and `Number` of
   * each is the channel that built it.
   */
  function Key(c: RGB): (k: string)
    ensures |Split(k, ',')| == 3
    ensures forall i :: 0 <= i < 3 ==> AllDigits(Split(k, ',')[i])
    ensures ParseDecimal(Split(k, ',')[0]) == c.r
    ensures ParseDecimal(Split(k, ',')[1]) == c.g
    ensures ParseDecimal(Split(k, ',')[2]) == c.b
  {
    var dr, dg, db := Decimal(c.r), Decimal(c.g), Decimal(c.b);
    DigitsHaveNoComma(dr);
    DigitsHaveNoComma(dg);
    DigitsHaveNoComma(db);
    var k := dr + "," + dg + "," + db;
    assert k == dr + [','] + (dg + [','] + db);
    SplitFirst(dr, ',', dg + [','] + db);
    SplitFirst(dg, ',', db);
    SplitWithout(db, ',');
    k
  }

  /** A string without the separator is one piece. */
  lemma {:induction false} SplitWithout(a: string, sep: char)
    requires sep !in a
    ensures Split(a, sep) == [a]
  {
    if a != [] {
      SplitWithout(a[1..], sep);
      assert [a[0]] + a[1..] == a;
    }
  }

  /** A separator-free prefix ending in a separator comes off as the first piece. */
  lemma {:induction false} SplitFirst(a: string, sep: char, t: string)
    requires sep !in a
    ensures Split(a + [sep] + t, sep) == [a] + Split(t, sep)
  {
    var s := a + [sep] + t;
    if a == [] {
      assert s[1..] == t;
    } else {
      assert s[1..] == a[1..] + [sep] + t;
      SplitFirst(a[1..], sep, t);
      assert [a[0]] + a[1..] == a;
    }
  }

  /** The digits of a number never contain the separator `,`. */
  lemma DigitsHaveNoComma(s: string)
    requires AllDigits(s)
    ensures ',' !in s
  {
  }

  /** A digit string without leading zeros: what `${n}` writes. */
  predicate Canonical(s: string) {
    |s| >= 1 && AllDigits(s) && (s[0] != '0' || |s| == 1)
  }

  /** A canonical string of two or more digits has a value of at least 10. */
  lemma {:induction false} CanonicalAtLeastTen(s: string)
    requires Canonical(s) && |s| >= 2
    ensures ParseDecimal(s) >= 10
  {
    var init := s[..|s| - 1];
    assert init[0] == s[0];
    if |init| >= 2 {
      CanonicalAtLeastTen(init);
    }
  }

  /**
   * The other round trip: `${Number(s)}` gives back every canonical digit
   * string `s`.
   */
  lemma {:induction false} DecimalOfParse(s: string)
    requires Canonical(s)
    ensures Decimal(ParseDecimal(s)) == s
  {
    if |s| >= 2 {
      var init := s[..|s| - 1];
      assert init[0] == s[0];
      CanonicalAtLeastTen(s);
      DecimalOfParse(init);
      var n := ParseDecimal(s);
      assert n / 10 == ParseDecimal(init) && n % 10 == s[|s| - 1] as int - '0' as int;
      assert init + [s[|s| - 1]] == s;
    }
  }

  /** A key format under which distinct colours get distinct keys. */
  ghost predicate Injective(keyOf: RGB -> string) {
    forall c1, c2 :: keyOf(c1) == keyOf(c2) ==> c1 == c2
  }

  /** Distinct colours have distinct keys, so counting by key is counting by colour. */
  lemma KeyInjective()
    ensures Injective(Key)
  {
    forall c1, c2 | Key(c1) == Key(c2)
      ensures c1 == c2
    {
      assert ParseDecimal(Split(Key(c1), ',')[0]) == c2.r;
      assert ParseDecimal(Split(Key(c1), ',')[1]) == c2.g;
      assert ParseDecimal(Split(Key(c1), ',')[2]) == c2.b;
    }
  }
}

=== FILE: corner_color.dfy ===
/**
 * `getCornerColor`: the whole image is drawn into a 1 × 1 canvas and that
 * one pixel's ImageData is read. The draw-and-resample is a canvas
 * internal, so the model starts from the resulting pixel.
 */
module CornerColor {
  import opened Pixels
  import opened HexColor

  /** What the utility resolves with: the four bytes of the pixel and its hex colour. */
  datatype CornerSample = CornerSample(r: Byte, g: Byte, b: Byte, a: Byte, hex: string)

  /**
   * Resolves with the bytes of the single pixel, unchanged, and the hex
   * string of its colour; rejects with "Failed to read image." when the
   * image does not load.
   */
  function GetCornerColor(load: LoadOutcome<RGBA>): (outcome: Outcome<CornerSample>)
    ensures load.LoadFailed? <==> outcome == Rejected("Failed to read image.")
    ensures load.Loaded? ==>
      && outcome.Resolved?
      && var px, s := load.content, outcome.value;
      && s.r == px.r && s.g == px.g && s.b == px.b && s.a == px.a
      && IsHexOf(s.hex, px.r, px.g, px.b)
  {
    match load
    case LoadFailed => Rejected("Failed to read image.")
    case Loaded(px) =>
      Resolved(CornerSample(px.r, px.g, px.b, px.a, Hex(px.r, px.g, px.b)))
  }

  /** The hex string does not depend on alpha: pixels that differ only in alpha get the same one. */
  lemma HexIgnoresAlpha(p1: RGBA, p2: RGBA)
    requires p1.r == p2.r && p1.g == p2.g && p1.b == p2.b
    ensures GetCornerColor(Loaded(p1)).value.hex == GetCornerColor(Loaded(p2)).value.hex
  {
    var h1, h2 := GetCornerColor(Loaded(p1)).value.hex, GetCornerColor(Loaded(p2)).value.hex;
    HexOfUnique(h1, h2, p1.r, p1.g, p1.b);
  }
}

=== FILE: dominant_color.dfy ===
/**
 * The dominant-colour extractor (`getDominantColor`). The image is drawn
 * onto a 40 × 40 canvas and its ImageData read back; that resampling is a
 * canvas internal, so the model starts from the sampled bytes. A first loop
 * counts every pixel under the key `${r},${g},${b}`, a second one picks the
 * key with the highest count (the first one inserted on a tie), and the
 * winner is split back into numbers and written as `#rrggbb`.
 */
module DominantColor {
  import opened Pixels
  import opened HexColor
  import opened ColorKey

  /** Side of the grid the image is resampled to before counting. */
  const SampleSize := 40

  /** What the extractor resolves with. */
  datatype ColorSample = ColorSample(r: Byte, g: Byte, b: Byte, hex: string)

  // ---------------------------------------------------------------------
  // Specification: counts, order of first appearance, the dominant colour
  // ---------------------------------------------------------------------

  /** Number of 4-byte pixel groups in the ImageData bytes. */
  function PixelCount(data: seq<Byte>): nat {
    |data| / 4
  }

  /** The colour of pixel `p`: bytes 4p, 4p+1 and 4p+2. Byte 4p+3, alpha, is never read. */
  function ColorAt(data: seq<Byte>, p: nat): RGB
    requires p < PixelCount(data)
  {
    RGB(data[4 * p], data[4 * p + 1], data[4 * p + 2])
  }

  /** How many of the first `n` pixels have colour `c`, whatever their alpha. */
  function Count(data: seq<Byte>, n: nat, c: RGB): nat
    requires n <= PixelCount(data)
  {
    if n == 0 then 0
    else Count(data, n - 1, c) + (if ColorAt(data, n - 1) == c then 1 else 0)
  }

  /** The colours of the first `n` pixels, each once, in the order the scan first meets them. */
  function FirstSeen(data: seq<Byte>, n: nat): seq<RGB>
    requires n <= PixelCount(data)
  {
    if n == 0 then []
    else
      var seen := FirstSeen(data, n - 1);
      if ColorAt(data, n - 1) in seen then seen else seen + [ColorAt(data, n - 1)]
  }

  /**
   * The first pixel at or after `from` whose colour is `c`, or the pixel
   * count when there is none.
   */
  function FirstIndex(data: seq<Byte>, c: RGB, from: nat): (i: nat)
    requires from <= PixelCount(data)
    ensures from <= i <= PixelCount(data)
    ensures forall q :: from <= q < i ==> ColorAt(data, q) != c
    ensures i < PixelCount(data) ==> ColorAt(data, i) == c
    decreases PixelCount(data) - from
  {
    if from == PixelCount(data) then from
    else if ColorAt(data, from) == c then from
    else FirstIndex(data, c, from + 1)
  }

  /** Sum of the counts of the colours `cs` over the first `n` pixels. */
  function SumCounts(data: seq<Byte>, n: nat, cs: seq<RGB>): nat
    requires n <= PixelCount(data)
  {
    if cs == [] then 0 else Count(data, n, cs[0]) + SumCounts(data, n, cs[1..])
  }

  /**
   * `c` is the dominant colour of the sample: it occurs, no colour occurs
   * more often, and of the colours that occur as often it is the one the
   * scan meets first.
   */
  ghost predicate IsDominant(data: seq<Byte>, c: RGB) {
    var n := PixelCount(data);
    && Count(data, n, c) > 0
    && (forall d :: Count(data, n, d) <= Count(data, n, c))
    && (forall d :: Count(data, n, d) == Count(data, n, c) ==> FirstIndex(data, c, 0) <= FirstIndex(data, d, 0))
  }

  // ---------------------------------------------------------------------
  // Lemmas about the specification
  // ---------------------------------------------------------------------

  /** A colour is listed as seen exactly when some pixel so far has it, and then its count is positive. */
  lemma {:induction false} FirstSeenMembers(data: seq<Byte>, n: nat, c: RGB)
    requires n <= PixelCount(data)
    ensures c in FirstSeen(data, n) <==> Count(data, n, c) > 0
    ensures c !in FirstSeen(data, n) <==> forall q :: 0 <= q < n ==> ColorAt(data, q) != c
  {
    if n > 0 {
      FirstSeenMembers(data, n - 1, c);
    }
  }

  /** No colour is listed twice. */
  lemma {:induction false} FirstSeenDistinct(data: seq<Byte>, n: nat)
    requires n <= PixelCount(data)
    ensures forall i, j :: 0 <= i < j < |FirstSeen(data, n)| ==> FirstSeen(data, n)[i] != FirstSeen(data, n)[j]
  {
    if n > 0 {
      FirstSeenDistinct(data, n - 1);
    }
  }

  /**
   * The listing is in order of first appearance: every listed colour first
   * appears among the first `n` pixels, and earlier entries appear earlier.
   */
  lemma {:induction false} FirstSeenOrdered(data: seq<Byte>, n: nat)
    requires n <= PixelCount(data)
    ensures forall i :: 0 <= i < |FirstSeen(data, n)| ==> FirstIndex(data, FirstSeen(data, n)[i], 0) < n
    ensures forall i, j :: 0 <= i < j < |FirstSeen(data, n)| ==>
      FirstIndex(data, FirstSeen(data, n)[i], 0) < FirstIndex(data, FirstSeen(data, n)[j], 0)
  {
    if n > 0 {
      FirstSeenOrdered(data, n - 1);
      var seen, c := FirstSeen(data, n - 1), ColorAt(data, n - 1);
      if c !in seen {
        FirstSeenMembers(data, n - 1, c);
        assert FirstIndex(data, c, 0) == n - 1;
      }
    }
  }

  /** Adding pixel `n - 1` adds one to the sum of the counts of distinct colours exactly when its colour is among them. */
  lemma {:induction false} SumCountsStep(data: seq<Byte>, n: nat, cs: seq<RGB>)
    requires 1 <= n <= PixelCount(data)
    requires forall i, j :: 0 <= i < j < |cs| ==> cs[i] != cs[j]
    ensures SumCounts(data, n, cs) == SumCounts(data, n - 1, cs) + (if ColorAt(data, n - 1) in cs then 1 else 0)
  {
    if cs != [] {
      SumCountsStep(data, n, cs[1..]);
      assert ColorAt(data, n - 1) in cs <==> ColorAt(data, n - 1) == cs[0] || ColorAt(data, n - 1) in cs[1..];
    }
  }

  lemma {:induction false} SumCountsAppend(data: seq<Byte>, n: nat, cs: seq<RGB>, c: RGB)
    requires n <= PixelCount(data)
    ensures SumCounts(data, n, cs + [c]) == SumCounts(data, n, cs) + Count(data, n, c)
  {
    if cs != [] {
      assert (cs + [c])[1..] == cs[1..] + [c];
      SumCountsAppend(data, n, cs[1..], c);
    }
  }

  /** The counts of the table add up to the number of pixels: every pixel is counted once. */
  lemma {:induction false} CountsSumToPixels(data: seq<Byte>, n: nat)
    requires n <= PixelCount(data)
    ensures SumCounts(data, n, FirstSeen(data, n)) == n
  {
    if n > 0 {
      CountsSumToPixels(data, n - 1);
      var seen, c := FirstSeen(data, n - 1), ColorAt(data, n - 1);
      FirstSeenDistinct(data, n - 1);
      SumCountsStep(data, n, seen);
      if c !in seen {
        SumCountsAppend(data, n, seen, c);
        FirstSeenMembers(data, n - 1, c);
      }
    }
  }

  /**
   * The scan's choice is the dominant colour: the listed colour at `at` has
   * a count no smaller than any listed colour's and strictly greater than
   * that of every colour listed before it.
   */
  lemma DominantFromScan(data: seq<Byte>, at: nat)
    requires at < |FirstSeen(data, PixelCount(data))|
    requires var n, seen := PixelCount(data), FirstSeen(data, PixelCount(data));
      forall j :: 0 <= j < |seen| ==> Count(data, n, seen[j]) <= Count(data, n, seen[at])
    requires var n, seen := PixelCount(data), FirstSeen(data, PixelCount(data));
      forall j :: 0 <= j < at ==> Count(data, n, seen[j]) < Count(data, n, seen[at])
    ensures IsDominant(data, FirstSeen(data, PixelCount(data))[at])
  {
    var n, seen := PixelCount(data), FirstSeen(data, PixelCount(data));
    var c := seen[at];
    FirstSeenMembers(data, n, c);
    FirstSeenOrdered(data, n);
    forall d
      ensures Count(data, n, d) <= Count(data, n, c)
      ensures Count(data, n, d) == Count(data, n, c) ==> FirstIndex(data, c, 0) <= FirstIndex(data, d, 0)
    {
      FirstSeenMembers(data, n, d);
      if d in seen {
        var j :| 0 <= j < |seen| && seen[j] == d;
        assert Count(data, n, seen[j]) <= Count(data, n, c);
      }
    }
  }

  /** At most one colour is dominant: the tie-break leaves no choice. */
  lemma DominantUnique(data: seq<Byte>, c1: RGB, c2: RGB)
    requires IsDominant(data, c1) && IsDominant(data, c2)
    ensures c1 == c2
  {
    var n := PixelCount(data);
    FirstSeenMembers(data, n, c1);
    assert FirstIndex(data, c1, 0) == FirstIndex(data, c2, 0);
  }

  /** Samples that differ only in alpha bytes have the same counts and first appearances. */
  lemma {:induction false} AlphaIgnoredCounts(data1: seq<Byte>, data2: seq<Byte>, n: nat, c: RGB)
    requires |data1| == |data2| && n <= PixelCount(data1)
    requires forall i :: 0 <= i < |data1| && i % 4 != 3 ==> data1[i] == data2[i]
    ensures Count(data1, n, c) == Count(data2, n, c)
  {
    if n > 0 {
      AlphaIgnoredCounts(data1, data2, n - 1, c);
      var p := n - 1;
      assert (4 * p) % 4 != 3 && (4 * p + 1) % 4 != 3 && (4 * p + 2) % 4 != 3;
      assert ColorAt(data1, p) == ColorAt(data2, p);
    }
  }

  lemma {:induction false} AlphaIgnoredFirstIndex(data1: seq<Byte>, data2: seq<Byte>, c: RGB, from: nat)
    requires |data1| == |data2| && from <= PixelCount(data1)
    requires forall i :: 0 <= i < |data1| && i % 4 != 3 ==> data1[i] == data2[i]
    ensures FirstIndex(data1, c, from) == FirstIndex(data2, c, from)
    decreases PixelCount(data1) - from
  {
    if from < PixelCount(data1) {
      var p := from;
      assert (4 * p) % 4 != 3 && (4 * p + 1) % 4 != 3 && (4 * p + 2) % 4 != 3;
      assert ColorAt(data1, p) == ColorAt(data2, p);
      AlphaIgnoredFirstIndex(data1, data2, c, from + 1);
    }
  }

  /**
   * Alpha is never read: two samples whose pixels differ only in alpha have
   * the same dominant colour (transparent pixels are counted like any other).
   */
  lemma AlphaIgnored(data1: seq<Byte>, data2: seq<Byte>, c: RGB)
    requires |data1| == |data2|
    requires forall i :: 0 <= i < |data1| && i % 4 != 3 ==> data1[i] == data2[i]
    ensures IsDominant(data1, c) <==> IsDominant(data2, c)
  {
    var n := PixelCount(data1);
    forall d
      ensures Count(data1, n, d) == Count(data2, n, d)
      ensures FirstIndex(data1, d, 0) == FirstIndex(data2, d, 0)
    {
      AlphaIgnoredCounts(data1, data2, n, d);
      AlphaIgnoredFirstIndex(data1, data2, d, 0);
    }
  }

  // ---------------------------------------------------------------------
  // The two loops and the extractor
  // ---------------------------------------------------------------------

  /**
   * The frequency table after the first `p` pixels: one key per colour seen
   * so far, in order of first appearance, each mapped to its count. The
   * table lemmas take the key format as a parameter and use only its
   * injectivity.
   */
  ghost predicate TableAfter(data: seq<Byte>, p: nat, keyOf: RGB -> string, colorCount: map<string, nat>, keys: seq<string>) {
    && p <= PixelCount(data)
    && |keys| == |FirstSeen(data, p)|
    && (forall j :: 0 <= j < |keys| ==> keys[j] == keyOf(FirstSeen(data, p)[j]))
    && (forall k :: k in colorCount ==> k in keys)
    && (forall j :: 0 <= j < |keys| ==> keys[j] in colorCount && colorCount[keys[j]] == Count(data, p, FirstSeen(data, p)[j]))
  }

  /** A pixel whose colour already has a key adds one to that key and changes nothing else. */
  lemma TableStepSeen(data: seq<Byte>, p: nat, keyOf: RGB -> string, colorCount: map<string, nat>, keys: seq<string>, key: string)
    requires Injective(keyOf)
    requires 1 <= p <= PixelCount(data) && TableAfter(data, p - 1, keyOf, colorCount, keys)
    requires key == keyOf(ColorAt(data, p - 1)) && key in colorCount
    ensures TableAfter(data, p, keyOf, colorCount[key := colorCount[key] + 1], keys)
  {
    var c, seen := ColorAt(data, p - 1), FirstSeen(data, p - 1);
    var updated := colorCount[key := colorCount[key] + 1];
    var at :| 0 <= at < |keys| && keys[at] == key;
    assert c in seen by {
      assert seen[at] == c;
    }
    assert FirstSeen(data, p) == seen;
    forall k
      ensures k in updated ==> k in keys
    {
    }
    forall j | 0 <= j < |keys|
      ensures keys[j] in updated && updated[keys[j]] == Count(data, p, seen[j])
    {
      if keys[j] != key {
        assert seen[j] != c;
      }
    }
  }

  /** A pixel of a colour not met before appends its key with count 1. */
  lemma TableStepNew(data: seq<Byte>, p: nat, keyOf: RGB -> string, colorCount: map<string, nat>, keys: seq<string>, key: string)
    requires 1 <= p <= PixelCount(data) && TableAfter(data, p - 1, keyOf, colorCount, keys)
    requires key == keyOf(ColorAt(data, p - 1)) && key !in colorCount
    ensures TableAfter(data, p, keyOf, colorCount[key := 1], keys + [key])
  {
    var c, seen := ColorAt(data, p - 1), FirstSeen(data, p - 1);
    var updated, keys' := colorCount[key := 1], keys + [key];
    assert c !in seen;
    FirstSeenMembers(data, p - 1, c);
    var seen' := FirstSeen(data, p);
    assert seen' == seen + [c];
    forall j | 0 <= j < |keys'|
      ensures keys'[j] == keyOf(seen'[j])
      ensures keys'[j] in updated && updated[keys'[j]] == Count(data, p, seen'[j])
    {
      if j < |keys| {
        assert seen'[j] == seen[j] != c;
      }
    }
    forall k
      ensures k in updated ==> k in keys'
    {
      assert k in keys' <==> k in keys || k == key;
    }
  }

  /** The finished table read by colour: a colour has a key exactly when it occurs, and the key holds its count. */
  lemma TableByColor(data: seq<Byte>, keyOf: RGB -> string, colorCount: map<string, nat>, keys: seq<string>)
    requires Injective(keyOf)
    requires TableAfter(data, PixelCount(data), keyOf, colorCount, keys)
    ensures forall c :: keyOf(c) in colorCount <==> Count(data, PixelCount(data), c) > 0
    ensures forall c :: keyOf(c) in colorCount ==> colorCount[keyOf(c)] == Count(data, PixelCount(data), c)
  {
    var n, seen := PixelCount(data), FirstSeen(data, PixelCount(data));
    forall c
      ensures keyOf(c) in colorCount <==> Count(data, n, c) > 0
      ensures keyOf(c) in colorCount ==> colorCount[keyOf(c)] == Count(data, n, c)
    {
      FirstSeenMembers(data, n, c);
      if keyOf(c) in colorCount {
        var j :| 0 <= j < |keys| && keys[j] == keyOf(c);
        assert seen[j] == c;
      }
      if c in seen {
        var j :| 0 <= j < |seen| && seen[j] == c;
        assert keys[j] == keyOf(c);
      }
    }
  }

  /** A table of a sample with at least one pixel has a first key, and its count is positive. */
  lemma TableCoversFirstPixel(data: seq<Byte>, keyOf: RGB -> string, colorCount: map<string, nat>, keys: seq<string>)
    requires TableAfter(data, PixelCount(data), keyOf, colorCount, keys) && PixelCount(data) > 0
    ensures |keys| > 0 && colorCount[keys[0]] > 0
  {
    var n, seen := PixelCount(data), FirstSeen(data, PixelCount(data));
    FirstSeenMembers(data, n, ColorAt(data, 0));
    FirstSeenMembers(data, n, seen[0]);
  }

  /**
   * The scan's choice over a finished table is the dominant colour: the key
   * at `at` with the highest count, strictly higher than every key before
   * it, is the key of the dominant colour.
   */
  lemma ScanChoosesDominant(data: seq<Byte>, keyOf: RGB -> string, colorCount: map<string, nat>, keys: seq<string>, at: nat, maxCount: nat)
    requires TableAfter(data, PixelCount(data), keyOf, colorCount, keys)
    requires at < |keys| && colorCount[keys[at]] == maxCount
    requires forall j :: 0 <= j < |keys| ==> colorCount[keys[j]] <= maxCount
    requires forall j :: 0 <= j < at ==> colorCount[keys[j]] < maxCount
    ensures keys[at] == keyOf(FirstSeen(data, PixelCount(data))[at])
    ensures IsDominant(data, FirstSeen(data, PixelCount(data))[at])
  {
    var n, seen := PixelCount(data), FirstSeen(data, PixelCount(data));
    forall j | 0 <= j < |seen|
      ensures Count(data, n, seen[j]) <= Count(data, n, seen[at])
      ensures j < at ==> Count(data, n, seen[j]) < Count(data, n, seen[at])
    {
      assert colorCount[keys[j]] == Count(data, n, seen[j]);
    }
    DominantFromScan(data, at);
  }

  /**
   * The frequency table after the first `p` pixels under the key format
   * `keyOf`, built one pixel at a time as the loop builds it.
   */
  function Table(data: seq<Byte>, p: nat, keyOf: RGB -> string): map<string, nat>
    requires p <= PixelCount(data)
  {
    if p == 0 then map[]
    else
      var table, key := Table(data, p - 1, keyOf), keyOf(ColorAt(data, p - 1));
      table[key := (if key in table then table[key] else 0) + 1]
  }

  /** The table's keys in insertion order after the first `p` pixels. */
  function KeyOrder(data: seq<Byte>, p: nat, keyOf: RGB -> string): seq<string>
    requires p <= PixelCount(data)
  {
    if p == 0 then []
    else
      var keys, key := KeyOrder(data, p - 1, keyOf), keyOf(ColorAt(data, p - 1));
      if key in Table(data, p - 1, keyOf) then keys else keys + [key]
  }

  /** Building in pixel `p - 1` when its colour already has a key. */
  lemma TableGrowsSeen(data: seq<Byte>, p: nat, keyOf: RGB -> string)
    requires Injective(keyOf) && 1 <= p <= PixelCount(data)
    requires TableAfter(data, p - 1, keyOf, Table(data, p - 1, keyOf), KeyOrder(data, p - 1, keyOf))
    requires keyOf(ColorAt(data, p - 1)) in Table(data, p - 1, keyOf)
    ensures TableAfter(data, p, keyOf, Table(data, p, keyOf), KeyOrder(data, p, keyOf))
  {
    var table, keys, key := Table(data, p - 1, keyOf), KeyOrder(data, p - 1, keyOf), keyOf(ColorAt(data, p - 1));
    UnfoldSeen(data, p, keyOf);
    TableStepSeen(data, p, keyOf, table, keys, key);
  }

  /** One step of `Table` and `KeyOrder` for a colour that already has a key. */
  lemma UnfoldSeen(data: seq<Byte>, p: nat, keyOf: RGB -> string)
    requires 1 <= p <= PixelCount(data)
    requires keyOf(ColorAt(data, p - 1)) in Table(data, p - 1, keyOf)
    ensures var table, key := Table(data, p - 1, keyOf), keyOf(ColorAt(data, p - 1));
      Table(data, p, keyOf) == table[key := table[key] + 1] && KeyOrder(data, p, keyOf) == KeyOrder(data, p - 1, keyOf)
  {
  }

  /** One step of `Table` and `KeyOrder` for a colour that has no key yet. */
  lemma UnfoldNew(data: seq<Byte>, p: nat, keyOf: RGB -> string)
    requires 1 <= p <= PixelCount(data)
    requires keyOf(ColorAt(data, p - 1)) !in Table(data, p - 1, keyOf)
    ensures var key := keyOf(ColorAt(data, p - 1));
      Table(data, p, keyOf) == Table(data, p - 1, keyOf)[key := 1] && KeyOrder(data, p, keyOf) == KeyOrder(data, p - 1, keyOf) + [key]
  {
  }

  /** Building in pixel `p - 1` when its colour has no key yet. */
  lemma TableGrowsNew(data: seq<Byte>, p: nat, keyOf: RGB -> string)
    requires 1 <= p <= PixelCount(data)
    requires TableAfter(data, p - 1, keyOf, Table(data, p - 1, keyOf), KeyOrder(data, p - 1, keyOf))
    requires keyOf(ColorAt(data, p - 1)) !in Table(data, p - 1, keyOf)
    ensures TableAfter(data, p, keyOf, Table(data, p, keyOf), KeyOrder(data, p, keyOf))
  {
    var table, keys, key := Table(data, p - 1, keyOf), KeyOrder(data, p - 1, keyOf), keyOf(ColorAt(data, p - 1));
    UnfoldNew(data, p, keyOf);
    TableStepNew(data, p, keyOf, table, keys, key);
  }

  /**
   * The table built pixel by pixel is the table of counts: one key per
   * colour, in order of first appearance, holding that colour's count.
   */
  lemma {:induction false} TableIsCounts(data: seq<Byte>, p: nat, keyOf: RGB -> string)
    requires Injective(keyOf) && p <= PixelCount(data)
    ensures TableAfter(data, p, keyOf, Table(data, p, keyOf), KeyOrder(data, p, keyOf))
  {
    if p > 0 {
      TableIsCounts(data, p - 1, keyOf);
      if keyOf(ColorAt(data, p - 1)) in Table(data, p - 1, keyOf) {
        TableGrowsSeen(data, p, keyOf);
      } else {
        TableGrowsNew(data, p, keyOf);
      }
    }
  }

  /**
   * The frequency loop: `colorCount[key] = (colorCount[key] || 0) + 1` for
   * every 4-byte group. `keys` is the object's key order, which for these
   * keys (they contain commas, so none is an array index) is insertion order.
   * The key format is a parameter, `Key` in the extractor, of which the loop
   * needs only that distinct colours get distinct keys.
   */
  method CountColors(data: seq<Byte>, keyOf: RGB -> string) returns (colorCount: map<string, nat>, keys: seq<string>)
    requires |data| % 4 == 0 && Injective(keyOf)
    ensures TableAfter(data, PixelCount(data), keyOf, colorCount, keys)
    ensures forall c :: keyOf(c) in colorCount <==> Count(data, PixelCount(data), c) > 0
    ensures forall c :: keyOf(c) in colorCount ==> colorCount[keyOf(c)] == Count(data, PixelCount(data), c)
  {
    ghost var n := PixelCount(data);
    assert |data| == 4 * n;
    colorCount, keys := map[], [];
    var i := 0;
    ghost var p := 0;
    while i < |data|
      invariant 0 <= p <= n && i == 4 * p
      invariant colorCount == Table(data, p, keyOf) && keys == KeyOrder(data, p, keyOf)
    {
      var r, g, b := data[i], data[i + 1], data[i + 2];
      var key := keyOf(RGB(r, g, b));
      assert RGB(r, g, b) == ColorAt(data, p);
      if key !in colorCount {
        keys := keys + [key];
      }
      colorCount := colorCount[key := (if key in colorCount then colorCount[key] else 0) + 1];
      i, p := i + 4, p + 1;
    }
    assert p == n;
    TableIsCounts(data, n, keyOf);
    TableByColor(data, keyOf, colorCount, keys);
  }

  /**
   * The argmax loop: `if (colorCount[color] > maxCount)` over the keys in
   * order. The strict comparison keeps the first key that reaches the
   * highest count; a table whose counts are all 0 (or that is empty) leaves
   * `dominant` null.
   */
  method MostFrequent(colorCount: map<string, nat>, keys: seq<string>) returns (dominant: Option<string>, maxCount: nat)
    requires forall j :: 0 <= j < |keys| ==> keys[j] in colorCount
    ensures dominant.None? <==> maxCount == 0
    ensures forall j :: 0 <= j < |keys| ==> colorCount[keys[j]] <= maxCount
    ensures dominant.Some? ==>
      exists at :: (0 <= at < |keys| && keys[at] == dominant.value && colorCount[keys[at]] == maxCount
        && forall j :: 0 <= j < at ==> colorCount[keys[j]] < maxCount)
  {
    dominant, maxCount := None, 0;
    ghost var at := 0;
    for i := 0 to |keys|
      invariant dominant.None? <==> maxCount == 0
      invariant forall j :: 0 <= j < i ==> colorCount[keys[j]] <= maxCount
      invariant dominant.Some? ==> at < i && keys[at] == dominant.value && colorCount[keys[at]] == maxCount
      invariant dominant.Some? ==> forall j :: 0 <= j < at ==> colorCount[keys[j]] < maxCount
    {
      if colorCount[keys[i]] > maxCount {
        maxCount := colorCount[keys[i]];
        dominant := Some(keys[i]);
        at := i;
      }
    }
  }

  /**
   * `getDominantColor` after the image has loaded (or failed to): resolves
   * with the dominant colour of the sample and its hex string, rejects with
   * "Error loading image." when the load fails, and never settles when the
   * sample has no pixel (the null `dominant` makes `split` throw inside
   * `onload`). The 40 × 40 canvas always yields 1600 pixels, so in the
   * program the extractor always resolves once the image has loaded.
   */
  method GetDominantColor(load: LoadOutcome<seq<Byte>>) returns (outcome: Outcome<ColorSample>)
    requires load.Loaded? ==> |load.content| % 4 == 0
    ensures load.LoadFailed? ==> outcome == Rejected("Error loading image.")
    ensures load.Loaded? && |load.content| == 0 ==> outcome == Pending
    ensures load.Loaded? && |load.content| == 4 * SampleSize * SampleSize ==> outcome.Resolved?
    ensures load.Loaded? && |load.content| > 0 ==>
      && outcome.Resolved?
      && IsDominant(load.content, RGB(outcome.value.r, outcome.value.g, outcome.value.b))
      && IsHexOf(outcome.value.hex, outcome.value.r, outcome.value.g, outcome.value.b)
  {
    match load
    case LoadFailed =>
      outcome := Rejected("Error loading image.");
    case Loaded(data) =>
      KeyInjective();
      var colorCount, keys := CountColors(data, Key);
      var dominant, maxCount := MostFrequent(colorCount, keys);
      if PixelCount(data) > 0 {
        TableCoversFirstPixel(data, Key, colorCount, keys);
      }
      if dominant.None? {
        outcome := Pending;
      } else {
        ghost var at :| 0 <= at < |keys| && keys[at] == dominant.value
          && colorCount[keys[at]] == maxCount && forall j :: 0 <= j < at ==> colorCount[keys[j]] < maxCount;
        ScanChoosesDominant(data, Key, colorCount, keys, at, maxCount);
        ghost var c := FirstSeen(data, PixelCount(data))[at];
        assert dominant.value == Key(c);
        var parts := Split(dominant.value, ',');
        var dr, dg, db := ParseDecimal(parts[0]), ParseDecimal(parts[1]), ParseDecimal(parts[2]);
        assert RGB(dr, dg, db) == c;
        outcome := Resolved(ColorSample(dr, dg, db, Hex(dr, dg, db)));
      }
  }
}

=== FILE: hex_color.dfy ===
/**
 * The `#rrggbb` notation (section 5.2 of CSS Color Module Level 4) as the
 * utilities compute it:
 *   `#${((1 << 24) + (r << 16) + (g << 8) + b).toString(16).slice(1)}`.
 * The leading 1 forces seven base-16 digits, so that dropping it keeps the
 * leading zeros of small channels.
 */
module HexColor {
  import opened Pixels

  /** The lower-case digit `Number.prototype.toString(16)` writes for `d`. */
  function HexDigit(d: nat): (c: char)
    requires d < 16
    ensures IsHexDigit(c) && DigitValue(c) == d
  {
    if d < 10 then ('0' as int + d) as char else ('a' as int + d - 10) as char
  }

  predicate IsHexDigit(c: char) {
    '0' <= c <= '9' || 'a' <= c <= 'f'
  }

  /** The value of a lower-case base-16 digit. */
  function DigitValue(c: char): (d: nat)
    requires IsHexDigit(c)
    ensures d < 16
  {
    if c <= '9' then c as int - '0' as int else c as int - 'a' as int + 10
  }

  /** The value of a string of lower-case base-16 digits, most significant first. */
  function ParseBase16(s: string): nat
    requires forall i :: 0 <= i < |s| ==> IsHexDigit(s[i])
  {
    if s == [] then 0 else 16 * ParseBase16(s[..|s| - 1]) + DigitValue(s[|s| - 1])
  }

  /** `n.toString(16)` for a non-negative integer: no leading zeros, lower case. */
  function ToBase16(n: nat): (s: string)
    ensures |s| >= 1
    ensures forall i :: 0 <= i < |s| ==> IsHexDigit(s[i])
    ensures ParseBase16(s) == n
  {
    if n < 16 then [HexDigit(n)]
    else
      var s := ToBase16(n / 16) + [HexDigit(n % 16)];
      assert s[..|s| - 1] == ToBase16(n / 16);
      s
  }

  /**
   * `(1 << 24) + (r << 16) + (g << 8) + b`. The channels are bytes, so no
   * shift leaves the 32-bit range and every shift is a multiplication.
   */
  function Packed(r: Byte, g: Byte, b: Byte): nat {
    0x100_0000 + r * 0x1_0000 + g * 0x100 + b
  }

  /**
   * The hex string both colour utilities return. Round trip: for any bytes
   * it is `#` and six lower-case hex digits, and the digit pairs read back
   * as `r`, `g` and `b`.
   */
  function Hex(r: Byte, g: Byte, b: Byte): (h: string)
    ensures IsHexOf(h, r, g, b)
  {
    PackedDigits(r, g, b);
    "#" + ToBase16(Packed(r, g, b))[1..]
  }

  /** The byte written by the two hex digits `hi` and `lo`. */
  function PairValue(hi: char, lo: char): nat
    requires IsHexDigit(hi) && IsHexDigit(lo)
  {
    16 * DigitValue(hi) + DigitValue(lo)
  }

  /**
   * `h` is `#` followed by exactly six lower-case hex digits whose pairs,
   * read back, are `r`, `g` and `b`.
   */
  predicate IsHexOf(h: string, r: Byte, g: Byte, b: Byte) {
    && |h| == 7
    && h[0] == '#'
    && (forall i :: 1 <= i < 7 ==> IsHexDigit(h[i]))
    && PairValue(h[1], h[2]) == r
    && PairValue(h[3], h[4]) == g
    && PairValue(h[5], h[6]) == b
  }

  /** Dividing off the last base-16 digit of a number with at least two digits. */
  lemma ToBase16Step(q: nat, d: nat)
    requires 1 <= q && d < 16
    ensures ToBase16(16 * q + d) == ToBase16(q) + [HexDigit(d)]
  {
    assert (16 * q + d) / 16 == q && (16 * q + d) % 16 == d;
  }

  /** Appending a byte to a number with at least one digit appends its two base-16 digits. */
  lemma AppendByte(q: nat, x: Byte)
    requires 1 <= q
    ensures ToBase16(0x100 * q + x) == ToBase16(q) + [HexDigit(x / 16), HexDigit(x % 16)]
  {
    var m := 16 * q + x / 16;
    assert 0x100 * q + x == 16 * m + x % 16;
    ToBase16Step(q, x / 16);
    ToBase16Step(m, x % 16);
  }

  /** The seven digits of the packed number: a 1, then two digits per channel. */
  lemma PackedDigits(r: Byte, g: Byte, b: Byte)
    ensures ToBase16(Packed(r, g, b)) ==
      ['1', HexDigit(r / 16), HexDigit(r % 16), HexDigit(g / 16), HexDigit(g % 16),
       HexDigit(b / 16), HexDigit(b % 16)]
  {
    var q1 := 0x100 + r;
    var q2 := 0x100 * q1 + g;
    assert Packed(r, g, b) == 0x100 * q2 + b;
    var hr, lr := HexDigit(r / 16), HexDigit(r % 16);
    var hg, lg := HexDigit(g / 16), HexDigit(g % 16);
    assert ToBase16(1) == ['1'];
    AppendByte(1, r);
    assert ToBase16(q1) == ['1', hr, lr];
    AppendByte(q1, g);
    assert ToBase16(q2) == ['1', hr, lr, hg, lg];
    AppendByte(q2, b);
  }

  /** Two strings that both encode the same channels are the same string. */
  lemma {:induction false} HexOfUnique(h1: string, h2: string, r: Byte, g: Byte, b: Byte)
    requires IsHexOf(h1, r, g, b) && IsHexOf(h2, r, g, b)
    ensures h1 == h2
  {
    forall k | 0 <= k < 3
      ensures h1[2 * k + 1] == h2[2 * k + 1] && h1[2 * k + 2] == h2[2 * k + 2]
    {
      var hi1, lo1, hi2, lo2 := h1[2 * k + 1], h1[2 * k + 2], h2[2 * k + 1], h2[2 * k + 2];
      assert PairValue(hi1, lo1) == PairValue(hi2, lo2);
      DigitsOfPair(hi1, lo1);
      DigitsOfPair(hi2, lo2);
    }
    assert forall i :: 0 <= i < 7 ==> h1[i] == h2[i] by {
      forall i | 0 <= i < 7 ensures h1[i] == h2[i] {
        if i > 0 {
          assert i == 2 * ((i - 1) / 2) + 1 || i == 2 * ((i - 1) / 2) + 2;
        }
      }
    }
  }

  /** A two-digit pair is determined by its value. */
  lemma DigitsOfPair(hi: char, lo: char)
    requires IsHexDigit(hi) && IsHexDigit(lo)
    ensures hi == HexDigit(PairValue(hi, lo) / 16) && lo == HexDigit(PairValue(hi, lo) % 16)
  {
    var v := PairValue(hi, lo);
    assert v / 16 == DigitValue(hi) && v % 16 == DigitValue(lo);
  }
}

=== FILE: logo_pdf.dfy ===
/**
 * The export utilities of `downloadLogoPDF.js`: the blur baker
 * `getBlurredImage` and the exporter `downloadLogoPDF`.
 *
 * The browser's share (decoding the image, whether the 2D context supports
 * `ctx.filter`, whether a canvas operation throws, the html2canvas snapshot
 * and jsPDF) is given as parameters; what the model computes is the
 * parameter arithmetic, the branches and the fallbacks around them.
 * JavaScript numbers are modelled as reals.
 */
module LogoPdf {
  import opened Pixels
  import opened UriComponent

  // ---------------------------------------------------------------------
  // getBlurredImage
  // ---------------------------------------------------------------------

  /** The sizes a decoded `Image` reports. */
  datatype DecodedImage = DecodedImage(naturalWidth: nat, naturalHeight: nat, width: nat, height: nat)

  /**
   * What the browser does during one blur: how the image load ends, whether
   * the context has a `filter` property, and whether a canvas call throws
   * (for instance `toDataURL` on a canvas tainted by a cross-origin image).
   */
  datatype BlurEnvironment = BlurEnvironment(load: LoadOutcome<DecodedImage>, filterSupported: bool, canvasThrows: bool)

  /** How the baked canvas was painted: with a native blur filter, or by a downscale and smooth upscale. */
  datatype BlurRender =
    | FilterBlur(radiusPx: real, width: nat, height: nat)
    | PixelBlur(smallWidth: nat, smallHeight: nat, width: nat, height: nat)

  /**
   * An image source: a URL string, the PNG data URL of a baked canvas, or
   * `"data:,"`, which `toDataURL` gives for a canvas with no pixels.
   */
  datatype ImageRef = Url(url: string) | PngDataUrl(render: BlurRender) | EmptyDataUrl

  /** The factor the fallback path never shrinks below. */
  const MinDownscaleFactor: real := 0.03

  /** `a || b` on sizes: `a` unless it is 0. */
  function OrElse(a: nat, b: nat): (r: nat)
    ensures r == a || r == b
    ensures a != 0 ==> r == a
    ensures r == 0 ==> a == 0 && b == 0
  {
    if a != 0 then a else b
  }

  /**
   * `displayWidth ? naturalWidth / displayWidth : 1`: natural pixels per
   * displayed pixel, or 1 when the displayed width is unknown (0).
   */
  function Scale(naturalWidth: nat, displayWidth: nat): (scale: real)
    ensures scale >= 0.0
    ensures displayWidth == 0 ==> scale == 1.0
    ensures displayWidth != 0 ==> scale * displayWidth as real == naturalWidth as real
  {
    if displayWidth != 0 then naturalWidth as real / displayWidth as real else 1.0
  }

  /**
   * `blurAmount * scale`: the blur in natural pixels, which stands to the
   * blur in displayed pixels as the natural width to the displayed width.
   */
  function ScaledBlur(blurAmount: real, naturalWidth: nat, displayWidth: nat): (scaled: real)
    ensures displayWidth == 0 ==> scaled == blurAmount
    ensures displayWidth != 0 ==> scaled * displayWidth as real == blurAmount * naturalWidth as real
  {
    var scale := Scale(naturalWidth, displayWidth);
    assert blurAmount * scale * displayWidth as real == blurAmount * (scale * displayWidth as real);
    blurAmount * scale
  }

  /** `Math.max(0.03, 1 / (1 + scaledBlur / 5))`. */
  function DownscaleFactor(scaledBlur: real): (f: real)
    requires scaledBlur >= 0.0
    ensures MinDownscaleFactor <= f <= 1.0
    ensures f == MinDownscaleFactor || f * (1.0 + scaledBlur / 5.0) == 1.0
    ensures f * (1.0 + scaledBlur / 5.0) >= 1.0
  {
    var f := 1.0 / (1.0 + scaledBlur / 5.0);
    if f > MinDownscaleFactor then f else MinDownscaleFactor
  }

  /** `Math.round(x)`: the nearest integer, halves rounded up. */
  function Round(x: real): (n: int)
    ensures n as real - 0.5 <= x < n as real + 0.5
  {
    (x + 0.5).Floor
  }

  /**
   * `Math.max(1, Math.round(natural * factor))`: one side of the intermediate
   * canvas, the nearest integer to the scaled side, or 1 when that is 0.
   */
  function SmallSize(natural: nat, factor: real): (n: nat)
    requires 0.0 <= factor
    ensures n >= 1
    ensures var x := natural as real * factor;
      (n as real - 0.5 <= x < n as real + 0.5) || (n == 1 && x < 0.5)
  {
    var r := Round(natural as real * factor);
    if r > 1 then r else 1
  }

  /**
   * `getBlurredImage(src, blurAmount, displayWidth)`. It never rejects: the
   * fast path, a failed load and a throwing canvas all give back `src`
   * itself; an image with a natural side of 0 gives a canvas with no
   * pixels, whose data URL is `"data:,"`; otherwise the result is a PNG of
   * the image at its natural size,
   * blurred by the scaled radius with the native filter or, without one, by
   * way of an intermediate canvas of the clamped downscaled size.
   */
  function GetBlurredImage(src: string, blurAmount: real, displayWidth: nat, env: BlurEnvironment): (result: ImageRef)
    ensures blurAmount <= 0.0 || env.load.LoadFailed? || env.canvasThrows ==> result == Url(src)
    ensures blurAmount > 0.0 && env.load.Loaded? && !env.canvasThrows ==> result.PngDataUrl? || result.EmptyDataUrl?
    ensures result.EmptyDataUrl? <==>
      && blurAmount > 0.0 && env.load.Loaded? && !env.canvasThrows
      && var img := env.load.content;
      && (OrElse(img.naturalWidth, img.width) == 0 || OrElse(img.naturalHeight, img.height) == 0)
    ensures result.Url? ==> result.url == src
    ensures result.PngDataUrl? ==>
      && blurAmount > 0.0 && env.load.Loaded? && !env.canvasThrows
      && var img := env.load.content;
      && var w, h := OrElse(img.naturalWidth, img.width), OrElse(img.naturalHeight, img.height);
      && w >= 1 && h >= 1
      && (result.render.FilterBlur? <==> env.filterSupported)
      && result.render.width == w && result.render.height == h
      && (result.render.FilterBlur? ==> result.render.radiusPx == ScaledBlur(blurAmount, w, displayWidth))
      && (result.render.PixelBlur? ==>
            var factor := DownscaleFactor(ScaledBlur(blurAmount, w, displayWidth));
            && result.render.smallWidth == SmallSize(w, factor)
            && result.render.smallHeight == SmallSize(h, factor)
            && 1 <= result.render.smallWidth && (w >= 1 ==> result.render.smallWidth <= w)
            && 1 <= result.render.smallHeight && (h >= 1 ==> result.render.smallHeight <= h))
  {
    if blurAmount <= 0.0 then Url(src)
    else match env.load
      case LoadFailed => Url(src)
      case Loaded(img) =>
        var naturalWidth := OrElse(img.naturalWidth, img.width);
        var naturalHeight := OrElse(img.naturalHeight, img.height);
        var scaledBlur := ScaledBlur(blurAmount, naturalWidth, displayWidth);
        if env.canvasThrows then Url(src)
        else if naturalWidth == 0 || naturalHeight == 0 then EmptyDataUrl
        else if env.filterSupported then
          PngDataUrl(FilterBlur(scaledBlur, naturalWidth, naturalHeight))
        else
          var factor := DownscaleFactor(scaledBlur);
          SmallSizeBounds(naturalWidth, factor);
          SmallSizeBounds(naturalHeight, factor);
          PngDataUrl(PixelBlur(SmallSize(naturalWidth, factor), SmallSize(naturalHeight, factor), naturalWidth, naturalHeight))
  }

  /** The intermediate side is at least 1, and no larger than a natural side of at least 1. */
  lemma SmallSizeBounds(natural: nat, factor: real)
    requires MinDownscaleFactor <= factor <= 1.0
    ensures SmallSize(natural, factor) >= 1
    ensures natural >= 1 ==> SmallSize(natural, factor) <= natural
  {
    var n := natural as real;
    var x := n * factor;
    MulMonotone(n, factor, 1.0);
    UnitFactor(n);
    assert x <= n;
    var r := Round(x);
    assert r as real - 0.5 <= x <= n;
    assert (r - natural) as real <= 0.5;
  }

  /** Multiplying by 1 changes nothing. */
  lemma UnitFactor(n: real)
    ensures n * 1.0 == n
  {
  }

  /** Multiplying by a non-negative number keeps an order. */
  lemma MulMonotone(n: real, f1: real, f2: real)
    requires 0.0 <= n && f1 <= f2
    ensures n * f1 <= n * f2
  {
    assert n * f2 - n * f1 == n * (f2 - f1);
  }

  /** Taking reciprocals of positive numbers reverses their order. */
  lemma ReciprocalAntitone(x: real, y: real)
    requires 0.0 < x <= y
    ensures 1.0 / y <= 1.0 / x
  {
    var a, b := 1.0 / x, 1.0 / y;
    assert a * x == 1.0 && b * y == 1.0;
    MulMonotone(b, x, y);
    assert (a - b) * x == 1.0 - b * x;
  }

  /** A display width of half the natural width doubles the blur. */
  lemma HalfDisplayWidthDoublesBlur(blurAmount: real, naturalWidth: nat, displayWidth: nat)
    requires displayWidth > 0 && naturalWidth == 2 * displayWidth
    ensures ScaledBlur(blurAmount, naturalWidth, displayWidth) == 2.0 * blurAmount
  {
    var dw := displayWidth as real;
    assert naturalWidth as real == 2.0 * dw;
    DivideOut(2.0, dw);
  }

  /** Dividing `k * x` by a positive `x` gives `k`. */
  lemma DivideOut(k: real, x: real)
    requires x > 0.0
    ensures (k * x) / x == k
  {
    var q := (k * x) / x;
    assert q * x == k * x;
    assert (q - k) * x == 0.0;
  }

  /** The stronger the blur, the smaller (or equal) the downscale factor. */
  lemma DownscaleFactorMonotone(s1: real, s2: real)
    requires 0.0 <= s1 <= s2
    ensures DownscaleFactor(s2) <= DownscaleFactor(s1)
  {
    ReciprocalAntitone(1.0 + s1 / 5.0, 1.0 + s2 / 5.0);
  }

  /** `Math.round` never reverses an order. */
  lemma RoundMonotone(x: real, y: real)
    requires x <= y
    ensures Round(x) <= Round(y)
  {
  }

  /** The stronger the blur, the smaller (or equal) the intermediate canvas of the fallback path. */
  lemma StrongerBlurSmallerIntermediate(natural: nat, s1: real, s2: real)
    requires 0.0 <= s1 <= s2
    ensures SmallSize(natural, DownscaleFactor(s2)) <= SmallSize(natural, DownscaleFactor(s1))
  {
    DownscaleFactorMonotone(s1, s2);
    SmallSizeMonotone(natural, DownscaleFactor(s2), DownscaleFactor(s1));
  }

  /** A larger factor never gives a smaller intermediate side. */
  lemma SmallSizeMonotone(natural: nat, f1: real, f2: real)
    requires 0.0 <= f1 <= f2
    ensures SmallSize(natural, f1) <= SmallSize(natural, f2)
  {
    MulMonotone(natural as real, f1, f2);
    RoundMonotone(natural as real * f1, natural as real * f2);
  }

  // ---------------------------------------------------------------------
  // downloadLogoPDF
  // ---------------------------------------------------------------------

  /** The relay route the exporter sends image URLs through. */
  const ProxyPrefix := "/api/image-proxy?url="

  /** Page side in millimetres for a round logo. */
  const RoundPageMM: real := 108.42

  /** Page side in millimetres for any other shape. */
  const SquarePageMM: real := 105.833

  /** The argument given as `element`: missing, not an `HTMLElement`, or one with its rendered width. */
  datatype Element = Missing | NotHtmlElement | HtmlElement(offsetWidth: nat)

  /** An image placed on a PDF page: its format and its box in millimetres. */
  datatype PlacedImage = PlacedImage(format: string, x: real, y: real, width: real, height: real)

  /** The saved single-page document. */
  datatype PdfDocument = PdfDocument(
    orientation: string, unit: string, pageWidth: real, pageHeight: real,
    image: PlacedImage, fileName: string)

  /**
   * What one export did once the element check passed: the page size, the
   * source given to the back layer of the snapshot, and the document saved
   * (none when capture or saving threw and the error was logged).
   */
  datatype ExportRun = ExportRun(pageSizeMM: real, backSrc: ImageRef, saved: Option<PdfDocument>)

  /** The blur level used when the caller omits the argument. */
  const DefaultBlurLevel: real := 5.0

  /** The `blurLevel = 5` parameter default: an omitted argument (`None`) is 5, a given one is itself. */
  function BlurLevelOrDefault(blurLevel: Option<real>): (level: real)
    ensures blurLevel.None? ==> level == DefaultBlurLevel
    ensures blurLevel.Some? ==> level == blurLevel.value
  {
    match blurLevel
    case None => DefaultBlurLevel
    case Some(given) => given
  }

  /** `cropShape === "round" ? 108.42 : 105.833`. */
  function PageSizeMM(cropShape: string): (mm: real)
    ensures mm == RoundPageMM <==> cropShape == "round"
    ensures mm == SquarePageMM <==> cropShape != "round"
  {
    if cropShape == "round" then RoundPageMM else SquarePageMM
  }

  /**
   * The relay URL for an image: the route, then the encoded image URL as
   * the whole value of the `url` parameter, from which the relay's query
   * parser gets the image URL back.
   */
  function ProxiedUrl(imageSrc: string): (url: string)
    ensures |url| >= |ProxyPrefix| && url[..|ProxyPrefix|] == ProxyPrefix
    ensures forall i :: |ProxyPrefix| <= i < |url| ==> IsUnescaped(url[i]) || url[i] == '%'
    ensures DecodeURIComponent(url[|ProxyPrefix|..]) == Some(imageSrc)
  {
    DecodeEncode(imageSrc);
    var url := ProxyPrefix + EncodeURIComponent(imageSrc);
    assert url[|ProxyPrefix|..] == EncodeURIComponent(imageSrc);
    url
  }

  /** The outer blur gate agrees with the baker's own fast path: gating on `blurLevel > 0` changes nothing. */
  lemma BlurGateIsFastPath(src: string, blurLevel: real, displayWidth: nat, env: BlurEnvironment)
    requires blurLevel <= 0.0
    ensures GetBlurredImage(src, blurLevel, displayWidth, env) == Url(src)
  {
  }

  /**
   * `downloadLogoPDF(element, cropShape, imageSrc, blurLevel)`, with
   * `blurLevel` `None` when the caller omits it. A missing or non-HTML
   * element rejects before anything else happens. Otherwise the export
   * resolves: the back layer gets the relay URL, blurred when the blur level
   * (5 when omitted) is positive; when capture and saving go through (`captureFails`
   * false) a square page of the shape's size is saved with the snapshot
   * filling it exactly, and when they throw the error is only logged.
   */
  method DownloadLogoPDF(element: Element, cropShape: string, imageSrc: string, blurLevel: Option<real>,
                         blurEnv: BlurEnvironment, captureFails: bool)
    returns (outcome: Outcome<ExportRun>)
    ensures !element.HtmlElement? <==> outcome == RejectedError("downloadLogoPDF: invalid element provided")
    ensures element.HtmlElement? ==> outcome.Resolved?
    ensures outcome.Resolved? ==>
      var run := outcome.value;
      && run.pageSizeMM == PageSizeMM(cropShape)
      && var level := BlurLevelOrDefault(blurLevel);
      && run.backSrc == GetBlurredImage(ProxiedUrl(imageSrc), level, element.offsetWidth, blurEnv)
      && (level <= 0.0 ==> run.backSrc == Url(ProxiedUrl(imageSrc)))
      && (blurLevel.None? && blurEnv.load.Loaded? && !blurEnv.canvasThrows ==> !run.backSrc.Url?)
      && (run.saved.Some? <==> !captureFails)
      && (run.saved.Some? ==>
            var doc := run.saved.value;
            && doc.orientation == "portrait" && doc.unit == "mm"
            && doc.pageWidth == doc.pageHeight == run.pageSizeMM
            && doc.image == PlacedImage("PNG", 0.0, 0.0, run.pageSizeMM, run.pageSizeMM)
            && doc.fileName == "PrintCopy.pdf")
  {
    if !element.HtmlElement? {
      return RejectedError("downloadLogoPDF: invalid element provided");
    }
    var pageSizeMM := PageSizeMM(cropShape);
    var proxiedImageSrc := ProxiedUrl(imageSrc);
    var level := BlurLevelOrDefault(blurLevel);
    var finalBackSrc := Url(proxiedImageSrc);
    if level > 0.0 {
      finalBackSrc := GetBlurredImage(proxiedImageSrc, level, element.offsetWidth, blurEnv);
    }
    var saved := None;
    if !captureFails {
      saved := Some(PdfDocument("portrait", "mm", pageSizeMM, pageSizeMM,
                                PlacedImage("PNG", 0.0, 0.0, pageSizeMM, pageSizeMM), "PrintCopy.pdf"));
    }
    outcome := Resolved(ExportRun(pageSizeMM, finalBackSrc, saved));
  }
}

=== FILE: pixels.dfy ===
/**
 * Values shared by the browser image utilities: 8-bit channels, RGBA pixels
 * as a canvas's ImageData hands them out, and the two ways an asynchronous
 * utility can end (the image load it waits for, and the promise it returns).
 */
module Pixels {

  /** One channel of a canvas pixel (the entries of a Uint8ClampedArray). */
  type Byte = x: int | 0 <= x < 256

  /** A pixel as `getImageData` returns it: red, green, blue, alpha. */
  datatype RGBA = RGBA(r: Byte, g: Byte, b: Byte, a: Byte)

  /** The colour part of a pixel, alpha left out. */
  datatype RGB = RGB(r: Byte, g: Byte, b: Byte)

  /** A value that may be missing (JavaScript's `null`). */
  datatype Option<T> = None | Some(value: T)

  /** The value of every pixel of a freshly sized canvas: transparent black. */
  const Transparent := RGBA(0, 0, 0, 0)

  /**
   * What an `Image` element's load ends in: `onload` with the decoded
   * content (whatever the utility reads from it), or `onerror`.
   */
  datatype LoadOutcome<T> = Loaded(content: T) | LoadFailed

  /**
   * How a returned promise settles: resolved with a value, rejected with the
   * string the utility passes to `reject`, rejected with an `Error` object
   * (an `async` function that throws one; only its message is kept), or
   * never (an exception thrown inside an `onload` callback escapes the
   * promise and leaves it pending).
   */
  datatype Outcome<T> =
    | Resolved(value: T)
    | Rejected(reason: string)
    | RejectedError(message: string)
    | Pending
}

=== FILE: uri_component.dfy ===
/**
 * `encodeURIComponent`, which the exporter applies to the image URL before
 * appending it to the relay's query string: every character outside
 * A-Z a-z 0-9 - _ . ! ~ * ' ( ) is replaced by its UTF-8 octets (RFC 3629,
 * section 3), each written as a percent-encoded triplet with upper-case hex
 * digits (RFC 3986, section 2.1). Dafny characters are Unicode scalar values,
 * so the lone surrogates that make the JavaScript function throw cannot occur.
 *
 * The decoder is the partner used to state what the encoding achieves: the
 * relay's query parser gets the original URL back.
 */
module UriComponent {
  import opened Pixels

  /** The characters `encodeURIComponent` leaves as they are. */
  predicate IsUnescaped(c: char) {
    || 'A' <= c <= 'Z' || 'a' <= c <= 'z' || '0' <= c <= '9'
    || c == '-' || c == '_' || c == '.' || c == '!' || c == '~' || c == '*' || c == '\'' || c == '(' || c == ')'
  }

  /** A hex digit of either case, as the two digits after a `%` may be. */
  predicate IsPercentHexDigit(c: char) {
    '0' <= c <= '9' || 'A' <= c <= 'F' || 'a' <= c <= 'f'
  }

  function UpperHexDigit(d: nat): (c: char)
    requires d < 16
    ensures IsUnescaped(c) && IsPercentHexDigit(c) && HexValue(c) == d
  {
    if d < 10 then ('0' as int + d) as char else ('A' as int + d - 10) as char
  }

  /** The value of a hex digit of either case. */
  function HexValue(c: char): (d: nat)
    requires IsPercentHexDigit(c)
    ensures d < 16
  {
    if c <= '9' then c as int - '0' as int
    else if c <= 'F' then c as int - 'A' as int + 10
    else c as int - 'a' as int + 10
  }

  predicate IsOctets(octets: seq<nat>) {
    forall i :: 0 <= i < |octets| ==> octets[i] < 256
  }

  /** The UTF-8 octets of a Unicode scalar value. */
  function Utf8(cp: nat): (octets: seq<nat>)
    requires cp < 0x11_0000
    ensures 1 <= |octets| <= 4 && IsOctets(octets)
  {
    if cp < 0x80 then [cp]
    else if cp < 0x800 then [0xC0 + cp / 0x40, 0x80 + cp % 0x40]
    else if cp < 0x1_0000 then [0xE0 + cp / 0x1000, 0x80 + (cp / 0x40) % 0x40, 0x80 + cp % 0x40]
    else [0xF0 + cp / 0x4_0000, 0x80 + (cp / 0x1000) % 0x40, 0x80 + (cp / 0x40) % 0x40, 0x80 + cp % 0x40]
  }

  /** Each octet as `%XY`. */
  function Percent(octets: seq<nat>): (s: string)
    requires IsOctets(octets)
    ensures |s| == 3 * |octets|
    ensures forall i :: 0 <= i < |s| ==> IsUnescaped(s[i]) || s[i] == '%'
  {
    if octets == [] then []
    else ['%', UpperHexDigit(octets[0] / 16), UpperHexDigit(octets[0] % 16)] + Percent(octets[1..])
  }

  function EncodeChar(c: char): (s: string)
    ensures forall i :: 0 <= i < |s| ==> IsUnescaped(s[i]) || s[i] == '%'
  {
    if IsUnescaped(c) then [c] else Percent(Utf8(c as int))
  }

  /**
   * `encodeURIComponent(s)`. Its result holds only unescaped characters and
   * `%`, so appended after `?url=` it cannot end the parameter early (no
   * `&`, `#`, `=`, `+` or space).
   */
  function EncodeURIComponent(s: string): (r: string)
    ensures forall i :: 0 <= i < |r| ==> IsUnescaped(r[i]) || r[i] == '%'
  {
    if s == [] then [] else EncodeChar(s[0]) + EncodeURIComponent(s[1..])
  }

  // ---------------------------------------------------------------------
  // Decoding, the partner of the encoder
  // ---------------------------------------------------------------------

  /** The number of octets of a UTF-8 sequence with leading octet `b0`, or 0 if `b0` cannot lead one. */
  function SequenceLength(b0: nat): nat {
    if b0 < 0x80 then 1
    else if 0xC0 <= b0 < 0xE0 then 2
    else if 0xE0 <= b0 < 0xF0 then 3
    else if 0xF0 <= b0 < 0xF8 then 4
    else 0
  }

  predicate IsContinuation(b: nat) {
    0x80 <= b < 0xC0
  }

  /** The scalar value a complete UTF-8 sequence encodes; overlong forms and surrogates are refused. */
  function CodePoint(os: seq<nat>): Option<char> {
    if |os| == 1 && os[0] < 0x80 then Some(os[0] as char)
    else if |os| == 2 && 0xC0 <= os[0] < 0xE0 && IsContinuation(os[1]) then
      var cp := (os[0] - 0xC0) * 0x40 + (os[1] - 0x80);
      if cp < 0x80 then None else Some(cp as char)
    else if |os| == 3 && 0xE0 <= os[0] < 0xF0 && IsContinuation(os[1]) && IsContinuation(os[2]) then
      var cp := (os[0] - 0xE0) * 0x1000 + (os[1] - 0x80) * 0x40 + (os[2] - 0x80);
      if cp < 0x800 || 0xD800 <= cp < 0xE000 then None else Some(cp as char)
    else if |os| == 4 && 0xF0 <= os[0] < 0xF8 && IsContinuation(os[1]) && IsContinuation(os[2]) && IsContinuation(os[3]) then
      var cp := (os[0] - 0xF0) * 0x4_0000 + (os[1] - 0x80) * 0x1000 + (os[2] - 0x80) * 0x40 + (os[3] - 0x80);
      if cp < 0x1_0000 || cp >= 0x11_0000 then None else Some(cp as char)
    else None
  }

  /** The octets written by `n` percent triplets at the start of `s`, if that is what is there. */
  function Triplets(s: string, n: nat): Option<seq<nat>>
    requires |s| >= 3 * n
  {
    if n == 0 then Some([])
    else if s[0] != '%' || !IsPercentHexDigit(s[1]) || !IsPercentHexDigit(s[2]) then None
    else
      var rest := Triplets(s[3..], n - 1);
      if rest.None? then None else Some([16 * HexValue(s[1]) + HexValue(s[2])] + rest.value)
  }

  /** `decodeURIComponent(s)`, with `None` where JavaScript throws a URIError. */
  function DecodeURIComponent(s: string): Option<string>
    decreases |s|
  {
    if s == [] then Some([])
    else if s[0] != '%' then
      var rest := DecodeURIComponent(s[1..]);
      if rest.None? then None else Some([s[0]] + rest.value)
    else if |s| < 3 || !IsPercentHexDigit(s[1]) || !IsPercentHexDigit(s[2]) then None
    else
      var n := SequenceLength(16 * HexValue(s[1]) + HexValue(s[2]));
      if n == 0 || |s| < 3 * n then None
      else
        var octets := Triplets(s, n);
        if octets.None? then None
        else
          var c := CodePoint(octets.value);
          if c.None? then None
          else
            var rest := DecodeURIComponent(s[3 * n..]);
            if rest.None? then None else Some([c.value] + rest.value)
  }

  /** Reading back percent-encoded octets gives the octets. */
  lemma {:induction false} TripletsOfPercent(octets: seq<nat>, rest: string)
    requires IsOctets(octets)
    ensures Triplets(Percent(octets) + rest, |octets|) == Some(octets)
  {
    if octets != [] {
      var s := Percent(octets) + rest;
      var b := octets[0];
      assert s[3..] == Percent(octets[1..]) + rest;
      TripletsOfPercent(octets[1..], rest);
      assert 16 * (b / 16) + b % 16 == b;
      assert [b] + octets[1..] == octets;
    }
  }

  /** A two-octet sequence reads back as its scalar value. */
  lemma Utf8TwoOctets(cp: nat)
    requires 0x80 <= cp < 0x800
    ensures var os := Utf8(cp); SequenceLength(os[0]) == 2 && CodePoint(os) == Some(cp as char)
  {
    var hi, lo := cp / 0x40, cp % 0x40;
    assert Utf8(cp) == [0xC0 + hi, 0x80 + lo];
    assert cp == hi * 0x40 + lo;
  }

  /** A three-octet sequence reads back as its scalar value. */
  lemma Utf8ThreeOctets(cp: nat)
    requires 0x800 <= cp < 0x1_0000 && !(0xD800 <= cp < 0xE000)
    ensures var os := Utf8(cp); SequenceLength(os[0]) == 3 && CodePoint(os) == Some(cp as char)
  {
    var hi, mid, lo := cp / 0x1000, (cp / 0x40) % 0x40, cp % 0x40;
    assert Utf8(cp) == [0xE0 + hi, 0x80 + mid, 0x80 + lo];
    assert cp / 0x40 == hi * 0x40 + mid;
    assert cp == (cp / 0x40) * 0x40 + lo;
    assert hi * 0x1000 + mid * 0x40 + lo == cp;
  }

  /** The four 3-, 6-, 6- and 6-bit fields of a value below 0x20_0000 add back up to it. */
  lemma FourFields(cp: nat)
    requires cp < 0x20_0000
    ensures (cp / 0x4_0000) * 0x4_0000 + ((cp / 0x1000) % 0x40) * 0x1000 + ((cp / 0x40) % 0x40) * 0x40 + cp % 0x40 == cp
    ensures cp / 0x4_0000 < 8
  {
    assert cp / 0x1000 == (cp / 0x4_0000) * 0x40 + (cp / 0x1000) % 0x40;
    assert cp / 0x40 == (cp / 0x1000) * 0x40 + (cp / 0x40) % 0x40;
    assert cp == (cp / 0x40) * 0x40 + cp % 0x40;
  }

  /** A four-octet sequence reads back as its scalar value. */
  lemma Utf8FourOctets(cp: nat)
    requires 0x1_0000 <= cp < 0x11_0000
    ensures var os := Utf8(cp); SequenceLength(os[0]) == 4 && CodePoint(os) == Some(cp as char)
  {
    var b0, b1, b2, b3 := cp / 0x4_0000, (cp / 0x1000) % 0x40, (cp / 0x40) % 0x40, cp % 0x40;
    FourFields(cp);
    assert Utf8(cp) == [0xF0 + b0, 0x80 + b1, 0x80 + b2, 0x80 + b3];
  }

  /** UTF-8 round trip for one scalar value: its octets announce their own length and decode to it. */
  lemma Utf8RoundTrip(c: char)
    ensures SequenceLength(Utf8(c as int)[0]) == |Utf8(c as int)|
    ensures CodePoint(Utf8(c as int)) == Some(c)
  {
    var cp := c as int;
    if cp < 0x80 {
    } else if cp < 0x800 {
      Utf8TwoOctets(cp);
    } else if cp < 0x1_0000 {
      Utf8ThreeOctets(cp);
    } else {
      Utf8FourOctets(cp);
    }
  }

  /** Decoding an encoded character followed by anything decodes the character, then the rest. */
  lemma DecodeEncodedChar(c: char, rest: string)
    ensures DecodeURIComponent(EncodeChar(c) + rest) ==
      var r := DecodeURIComponent(rest); if r.None? then None else Some([c] + r.value)
  {
    var s := EncodeChar(c) + rest;
    if IsUnescaped(c) {
      assert s[0] == c && s[1..] == rest;
    } else {
      var octets := Utf8(c as int);
      Utf8RoundTrip(c);
      TripletsOfPercent(octets, rest);
      assert s[..3] == Percent(octets)[..3];
      assert s[0] == '%';
      assert 16 * HexValue(s[1]) + HexValue(s[2]) == octets[0];
      assert s[3 * |octets|..] == rest;
    }
  }

  /** URI-component round trip: decoding the encoding of any string gives the string back. */
  lemma {:induction false} DecodeEncode(s: string)
    ensures DecodeURIComponent(EncodeURIComponent(s)) == Some(s)
  {
    if s != [] {
      DecodeEncode(s[1..]);
      DecodeEncodedChar(s[0], EncodeURIComponent(s[1..]));
      assert [s[0]] + s[1..] == s;
    }
  }

  /** A string of unescaped characters is its own encoding. */
  lemma {:induction false} EncodeUnescapedIsIdentity(s: string)
    requires forall i :: 0 <= i < |s| ==> IsUnescaped(s[i])
    ensures EncodeURIComponent(s) == s
  {
    if s != [] {
      EncodeUnescapedIsIdentity(s[1..]);
      assert [s[0]] + s[1..] == s;
    }
  }
}
